=== FILE: README.md ===
# Thorlabs MFF101 flip-mount driver, modelled in Dafny

The driver talks to one MFF101 motorized flip mount over a serial line using
the Thorlabs APT binary protocol. Its `Controller` class opens a session with
a handshake (the `MGMSG_HW_REQ_INFO` reply must name model `MFF002` and
firmware 65539), reads the mount's position (`MGMSG_MOT_REQ_STATUSBITS`),
flashes its LEDs (`MGMSG_MOD_IDENTIFY`) and flips it between positions 1 and 2
(`MGMSG_MOT_MOVE_JOG`). A flip can return before the move completes; the
device then sends a 20-byte `MGMSG_MOT_MOVE_COMPLETED` frame, which the
driver must drain before the next move, or every later read is out of step.

The model has six modules:

- `Outcomes` (outcomes.dfy): `Option`, `Result` and the `Error` values that
  replace the driver's exceptions and failed assertions.
- `Bytes` (bytes.dfy): octets, little-endian unsigned integers
  (`int.from_bytes(..., 'little')`) with their inverse, and ASCII decoding
  (`bytes.decode('ascii')`) with its inverse.
- `ByteChannel` (byte_channel.dfy): the serial port as an abstract channel.
  A `Port` keeps a transcript of every write and read, the bytes that have
  arrived but not been read (`inWaiting()` counts them), and the device's
  future transmissions as a script of whole chunks. A chunk arrives while
  the driver is blocked in a read that still lacks bytes, or when the
  environment delivers it (`Deliver`). A read returns short only when the
  script runs dry, as pyserial's read does on its timeout. An exchange is
  `AnsweredAlone` when the bytes waiting at the moment a blocking read of
  the reply stops letting chunks in, counting any already waiting before
  the request, are exactly the reply, so `inWaiting()` is 0 once it returns.
- `FrameCodec` (frame_codec.dfy): the four six-byte command frames as the APT
  headers they are, the decoding of the 90-byte info reply (with an encoder
  of matching replies), the 12-byte status reply, and the handshake
  constants.
- `DeviceSession` (device_session.dfy): the `Controller` state (identity,
  cached position, the "move outstanding" flag, the port) and its
  operations `Send` (`_send`), `GetPosition`, `Identify`, `FinishFlip`
  (`_finish_flip`), `Flip` and `Connect` (the constructor). Each maps a
  controller to `Done(value, after)` or `Failed(error, after)`, where
  `after` keeps the port traffic already done when the failure happened.
- `SessionScenarios` (scenarios.dfy): what the session does against a device
  that answers each request with whole frames of the right length.

## Model

| member | source | states |
|---|---|---|
| Bytes.FromLittleEndian | thorlabs_MFF101.py:44-47 | a k-byte little-endian field always reads as a value below 256^k |
| Bytes.FromToLittleEndian | thorlabs_MFF101.py:44-47 | reading back the k-byte little-endian encoding of a value below 256^k gives that value |
| Bytes.ToFromLittleEndian | thorlabs_MFF101.py:44-47 | the bytes of a little-endian field are determined by the value read from them |
| Bytes.LittleEndianInjective | thorlabs_MFF101.py:46 | two same-length fields read as the same number exactly when their bytes are equal |
| Bytes.DecodeAscii | thorlabs_MFF101.py:43 | ASCII decoding succeeds exactly when every byte is below 0x80, and then gives one character per byte with the same code |
| Bytes.DecodeAsciiIff | thorlabs_MFF101.py:43 | ASCII decoding yields a given string exactly on the bytes of that string |
| ByteChannel.Await | thorlabs_MFF101.py:31 | a blocking read lets transmissions arrive only while fewer than n bytes wait, losing and reordering nothing |
| ByteChannel.AwaitArrivesInOrder | thorlabs_MFF101.py:31 | transmissions arrive whole and in order, what stays queued is a suffix of the queue, and before the last one arrived fewer than n bytes were waiting, so no transmission arrives that the read does not need |
| ByteChannel.Read | thorlabs_MFF101.py:31 | `read(n)` takes at most n bytes off the front of the stream, takes all n exactly when the stream holds n, leaves nothing to read when it returns short, and logs what it took; when n bytes come, what stays waiting is what the blocking read let in beyond them |
| ByteChannel.ReadWholeTransmission | thorlabs_MFF101.py:31 | a read of n bytes from an empty buffer whose next transmission is n bytes long takes exactly that transmission and leaves nothing waiting |
| FrameCodec.HeaderRoundTrip | thorlabs_MFF101.py:91 | a six-byte APT header decodes back to the message id, parameters, destination and source it was built from |
| FrameCodec.FrameRoundTrip | thorlabs_MFF101.py:91 | every six-byte frame is the encoding of the header decoded from it |
| FrameCodec.JogFrame | thorlabs_MFF101.py:89-91 | the jog frame is a command frame carrying message 0x046A, first parameter 0 and, as direction, the position itself |
| FrameCodec.CommandFrames | thorlabs_MFF101.py:41-91 | the info, identify and status frames are the APT headers of messages 0x0005, 0x0223 and 0x0429 addressed 0x50 from 0x01, and every frame the driver writes is six bytes ending 0x50 0x01 |
| FrameCodec.DecodeInfo | thorlabs_MFF101.py:43-47 | decoding the info reply fails exactly when the model-number bytes are not ASCII; otherwise every field is within its byte width and the model number has at most 8 characters |
| FrameCodec.InfoRoundTrip | thorlabs_MFF101.py:43-47 | an info reply built from an identity decodes to that identity, whatever its other bytes |
| FrameCodec.InfoReencode | thorlabs_MFF101.py:43-47 | writing a decoded identity back into its own reply changes nothing, so the fields are exactly the bytes [6,10), [10,18), [18,20), [20,24) and [84,86) |
| FrameCodec.ModelBytes | thorlabs_MFF101.py:22 | eight model-number bytes decode to "MFF002" and two NULs exactly when they are those bytes |
| FrameCodec.FirmwareBytes | thorlabs_MFF101.py:23 | four firmware bytes read as 65539 exactly when they are 03 00 01 00 |
| FrameCodec.HandshakeBytes | thorlabs_MFF101.py:22-23 | a 90-byte info reply passes both handshake checks exactly when bytes [10,18) are "MFF002" and two NULs and bytes [20,24) are 03 00 01 00 |
| DeviceSession.Send | thorlabs_MFF101.py:27-36 | `_send` writes the command, then reads exactly the requested count or nothing; it times out exactly when the stream is too short; otherwise it consumes exactly the requested bytes and succeeds exactly when the exchange is answered alone, failing with `ProtocolDesync` only with bytes left waiting |
| DeviceSession.QueryPosition | thorlabs_MFF101.py:66-68 | the status exchange writes the status request, consumes exactly 12 bytes and yields the byte at offset 8, timing out exactly when fewer than 12 bytes come; with 12 bytes it succeeds exactly when the reply is answered alone, and on the desync path it has still consumed the 12 bytes and leaves bytes waiting |
| DeviceSession.GetPosition | thorlabs_MFF101.py:63-71 | `get_position` returns and caches the byte at offset 8 of the next 12 stream bytes, leaves the flag and identity alone, keeps the old position on failure, and keeps a working session working; once 12 bytes come it consumes exactly them and succeeds exactly when they are answered alone (lines 31 and 34), and a desync leaves bytes waiting |
| DeviceSession.Identify | thorlabs_MFF101.py:56-61 | `identify` writes the identify frame and nothing else, changes no state, and fails exactly when bytes are already waiting |
| DeviceSession.FinishFlip | thorlabs_MFF101.py:73-81 | with no move outstanding `_finish_flip` is the identity, with no I/O; on success the flag is cleared; on failure the move stays outstanding and the position unchanged |
| DeviceSession.FinishFlipDrains | thorlabs_MFF101.py:73-78 | with a move outstanding, resolving it consumes exactly the 20-byte completion frame then a 12-byte status reply, writes only the status request, caches the reply's position byte and times out exactly when fewer than 32 bytes come; with 32 bytes it consumes exactly them and resolves exactly when the status reply is answered alone after the completion frame, and a desync leaves bytes waiting |
| DeviceSession.FinishFlipValid | thorlabs_MFF101.py:73-78 | resolving a move keeps a working session working |
| DeviceSession.FinishFlipIdempotent | thorlabs_MFF101.py:74 | resolving an already resolved session returns the same outcome again |
| DeviceSession.Flip | thorlabs_MFF101.py:83-96 | a flip to a position other than 1 or 2 fails, from an idle session with the session unchanged, and with an error other than `InvalidPosition` only when resolving the outstanding move failed; when that resolve fails the flip fails without writing any jog frame; a successful flip leaves a move outstanding exactly when it did not block; from an idle session with bytes already waiting, a flip to 1 or 2 writes the jog frame, fails with `ProtocolDesync` and records no outstanding move, and a non-blocking flip from an idle session succeeds exactly when nothing waits |
| DeviceSession.Jog | thorlabs_MFF101.py:87-95 | past the resolve, a position other than 1 or 2 fails with the session unchanged, and a successful jog leaves a move outstanding exactly when it did not block; with bytes already waiting it writes the jog frame, fails with `ProtocolDesync` and leaves the flag clear (lines 92-93); without `block` it succeeds exactly when nothing waits; with `block` it fails when fewer than 32 bytes come (with `Timeout` if nothing was waiting) and otherwise succeeds exactly when the status reply is answered alone after the completion frame |
| DeviceSession.JogTranscript | thorlabs_MFF101.py:89-95 | a successful jog writes the jog frame, then with `block` consumes the completion frame and a status reply and caches that reply's position |
| DeviceSession.FlipRejectsBeforeJog | thorlabs_MFF101.py:87-92 | a flip to a position other than 1 or 2 writes no jog frame: the only frame it may write is the status request of resolving the outstanding move |
| DeviceSession.FlipTranscript | thorlabs_MFF101.py:83-96 | a successful flip drains the outstanding move's completion frame and status reply before writing the jog frame, then with `block` drains the new move; the cached position is the last status reply's and nothing is left waiting |
| DeviceSession.FlipValid | thorlabs_MFF101.py:83-96 | a flip keeps a working session working |
| DeviceSession.CheckIdentity | thorlabs_MFF101.py:21-23 | the constructor's checks pass exactly when the info reply decodes to model "MFF002" and two NULs with firmware 65539; undecodable model bytes fail with `NotAscii`, a wrong model with `HandshakeModel` (checked first, line 22), and a right model with wrong firmware with `HandshakeFirmware` (line 23) |
| DeviceSession.Connect | thorlabs_MFF101.py:21-25 | opening times out when the device sends less than an info reply, and a session opened has no move outstanding and an accepted identity |
| DeviceSession.AcceptedReplyBytes | thorlabs_MFF101.py:22-23 | a stream whose first 90 bytes pass the checks carries the expected model and firmware bytes |
| DeviceSession.ConnectHandshake | thorlabs_MFF101.py:21-23 | a session opens only on a device whose info reply carries the MFF002 model bytes and firmware bytes 03 00 01 00 |
| DeviceSession.ConnectIdentity | thorlabs_MFF101.py:21-24 | an opened session holds the identity decoded from the info reply and the position byte of the first status reply |
| DeviceSession.ConnectFailures | thorlabs_MFF101.py:21-24 | once the 90-byte info reply has come, opening fails with `ProtocolDesync` when bytes wait beyond it, and otherwise a failed identity check's error is the constructor's error; once the checks pass, opening times out when fewer than 12 more bytes come, and otherwise succeeds exactly when the first status reply is answered alone, failing with `ProtocolDesync` when bytes wait beyond it (lines 24 and 34) |
| DeviceSession.ConnectTranscript | thorlabs_MFF101.py:21-25 | opening writes the info request and one status request, consumes exactly 90 and 12 bytes, leaves nothing unread, and yields a working session |
| SessionScenarios.QueryOnWholeReply | thorlabs_MFF101.py:63-71 | a position query answered by one 12-byte transmission returns and caches its byte at offset 8 and leaves nothing waiting |
| SessionScenarios.FinishOnWholeFrames | thorlabs_MFF101.py:73-78 | a move answered by a 20-byte completion frame and a 12-byte reply resolves to the reply's position with the flag cleared |
| SessionScenarios.JogFromIdle | thorlabs_MFF101.py:83-96 | from an idle working session, a non-blocking flip writes the jog frame and only sets the flag |
| SessionScenarios.BlockingFlipThenGetPosition | thorlabs_MFF101.py:83-96 | a blocking flip to p, against a device reporting p, ends idle at p, and the next position query returns p |
| SessionScenarios.FlipResolvesThenJogs | thorlabs_MFF101.py:84-93 | a flip issued while a move is outstanding consumes the completion frame and a status reply before writing its own jog frame |
| SessionScenarios.NonBlockingFlipsResolve | thorlabs_MFF101.py:83-96 | a second non-blocking flip resolves the first move before writing its own jog, and a final resolve leaves the mount idle at the last reported position |
| SessionScenarios.GetPositionMisreadsCompletion | thorlabs_MFF101.py:63-71 | `get_position` issued while a move is outstanding takes 12 bytes of the completion frame as its reply and fails on the 8 left waiting, with the move still outstanding |
| SessionScenarios.QueryOnSplitReply | thorlabs_MFF101.py:66-68 | a 12-byte status reply split over two transmissions is read as one reply and the query succeeds with its byte at offset 8 |
| SessionScenarios.ConnectOnWholeFrames | thorlabs_MFF101.py:21-25 | a supported device that answers with one 90-byte info reply carrying the MFF002 model bytes and firmware bytes 03 00 01 00, then one 12-byte status reply, is accepted: the session opens idle at the reply's position with exactly the two exchanges logged |
| SessionScenarios.IdentifyAfterCompletionArrives | thorlabs_MFF101.py:56-61 | `identify` issued after the completion frame has arrived fails on the bytes waiting |

## Left out

- Opening the serial port (port name, 115200 baud, one-second timeout) and the translation of its failure into `IOError` (thorlabs_MFF101.py:14-19): foreign pyserial I/O; `Connect` takes the device's transmission script and opens an abstract port on it.
- The `name`, `verbose` and `very_verbose` settings and every message they print: they have no effect on state.
- `close` (thorlabs_MFF101.py:98-102): a bare pass-through to the port; the driver keeps no closed state, so there is none to model.
- The `__main__` demonstration and the two example scripts: hardware-dependent callers of the driver.
- Real time: the read timeout and the moment the completion frame arrives are represented only by the order of events in the transmission script.
- Short reads: pyserial returns fewer bytes than asked when its timeout elapses, and the driver carries on with them (a short info reply is sliced as it is; `_finish_flip` does not check what `read(20)` returned). The model fails with `Timeout` at any read that returns short.
- The contents of the 20-byte completion frame: the driver discards them.
- The `isinstance(position, int)` check (thorlabs_MFF101.py:87): positions are integers by type, and Python's treating of `True` as the integer 1 is not modelled.

Behaviour of the code that the model keeps as it is:

- `get_position` does not resolve an outstanding move; only `flip` does (thorlabs_MFF101.py:84). `GetPositionMisreadsCompletion` shows the consequence.
- The position byte is cached unchecked (thorlabs_MFF101.py:68): any byte value is a position.
- Lines 22 and 23 of thorlabs_MFF101.py are two separate assertions, modelled as `HandshakeModel` and `HandshakeFirmware`; the ASCII decoding at line 43 can fail on its own (`NotAscii`).
- The driver keeps no closed state.
- A flip to 1 or 2 from an idle session with bytes already waiting writes the jog frame (line 92), then fails the check at line 34 before `_flipping` is set at line 93: the mount moves while the driver records no outstanding move.
- `DecodeStatus` fails with `FrameTooShort` on a reply of 8 bytes or fewer, as indexing `[8:][0]` (lines 67-68) raises there; the session only ever passes it 12-byte replies, so this error exists for totality and never leaves an operation.

=== FILE: byte_channel.dfy ===
/**
 The serial port as the driver sees it: a duplex byte stream with blocking
 `write`, blocking `read(n)` and `inWaiting()`, the count of bytes that have
 arrived but not been read.

 Timing is modelled by the order of events only. The device's future
 transmissions form a script of whole chunks (`incoming`); a chunk arrives
 while the driver is blocked in a read that still lacks bytes, or when the
 environment delivers it (`Deliver`). A read whose script runs dry returns
 short, as pyserial's read does when its timeout elapses.
 */
module ByteChannel {
  import opened Bytes

  /** One entry of the port's transcript. */
  datatype Event = Wrote(frame: seq<byte>) | Took(data: seq<byte>)

  /** `log`: every write and read, in order; `unread`: bytes that have
      arrived and wait to be read; `incoming`: transmissions still to come. */
  datatype Port = Port(log: seq<Event>, unread: seq<byte>, incoming: seq<seq<byte>>)

  /** A freshly opened port to a device that will send `script`. */
  function Open(script: seq<seq<byte>>): Port {
    Port([], [], script)
  }

  function Concat(chunks: seq<seq<byte>>): seq<byte> {
    if chunks == [] then [] else chunks[0] + Concat(chunks[1..])
  }

  /** Every byte the driver can still read from the port, in order. */
  function Stream(p: Port): seq<byte> {
    p.unread + Concat(p.incoming)
  }

  /** `inWaiting()`. */
  function Pending(p: Port): nat {
    |p.unread|
  }

  function Write(p: Port, frame: seq<byte>): Port {
    p.(log := p.log + [Wrote(frame)])
  }

  /** Lets transmissions arrive until `n` bytes wait or the device has
      nothing more to send. Nothing is lost or reordered, and nothing arrives
      that the read does not need. */
  function Await(p: Port, n: nat): (q: Port)
    ensures q.log == p.log
    ensures Stream(q) == Stream(p)
    ensures |q.unread| >= n || q.incoming == []
    ensures |p.unread| >= n ==> q == p
    ensures p.unread <= q.unread
    decreases |p.incoming|
  {
    if |p.unread| >= n || p.incoming == [] then p
    else Await(p.(unread := p.unread + p.incoming[0], incoming := p.incoming[1..]), n)
  }

  /** Transmissions arrive whole and in order: what `Await` leaves queued is a
      suffix of what was queued, and it stopped after the first transmission
      that brought the waiting bytes to n, never pulling one more. */
  lemma {:induction false} AwaitArrivesInOrder(p: Port, n: nat)
    ensures |Await(p, n).incoming| <= |p.incoming|
    ensures Await(p, n).incoming == p.incoming[|p.incoming| - |Await(p, n).incoming|..]
    ensures |Await(p, n).incoming| < |p.incoming| ==>
      |Await(p, n).unread| - |p.incoming[|p.incoming| - |Await(p, n).incoming| - 1]| < n
    decreases |p.incoming|
  {
    if |p.unread| >= n || p.incoming == [] {
    } else {
      var p' := p.(unread := p.unread + p.incoming[0], incoming := p.incoming[1..]);
      AwaitArrivesInOrder(p', n);
      var q := Await(p', n);
      assert Await(p, n) == q;
      if |q.incoming| == |p'.incoming| {
        assert q == p';
      }
    }
  }

  /** `read(n)`: up to `n` bytes, fewer only when the device has no more
      to send. The bytes come off the front of the stream and are logged. */
  function Read(p: Port, n: nat): (r: (seq<byte>, Port))
    ensures |r.0| <= n
    ensures r.0 + Stream(r.1) == Stream(p)
    ensures |r.0| == n <==> |Stream(p)| >= n
    ensures |r.0| < n ==> Stream(r.1) == []
    ensures r.1.log == p.log + [Took(r.0)]
    ensures |Stream(p)| >= n ==> Pending(r.1) + n == |Await(p, n).unread|
  {
    var q := Await(p, n);
    var k := if |q.unread| < n then |q.unread| else n;
    assert q.unread == q.unread[..k] + q.unread[k..];
    (q.unread[..k], q.(unread := q.unread[k..], log := q.log + [Took(q.unread[..k])]))
  }

  /** After `cmd` is written, the bytes waiting when a blocking `read(n)`
      stops letting transmissions in are exactly the `n` it takes, counting
      any that were already waiting, so none is left once it returns. */
  predicate AnsweredAlone(p: Port, cmd: seq<byte>, n: nat) {
    |Await(Write(p, cmd), n).unread| == n
  }

  /** The device transmits its next chunk while the driver is not reading. */
  function Deliver(p: Port): (q: Port)
    ensures Stream(q) == Stream(p)
    ensures q.log == p.log
    ensures p.incoming != [] ==> Pending(q) == Pending(p) + |p.incoming[0]|
  {
    if p.incoming == [] then p
    else p.(unread := p.unread + p.incoming[0], incoming := p.incoming[1..])
  }

  /** A read of `n > 0` bytes from an empty buffer takes exactly the next
      transmission when that transmission is `n` bytes long, and leaves
      nothing waiting. */
  lemma ReadWholeTransmission(p: Port, n: nat)
    requires n > 0
    requires p.unread == [] && p.incoming != [] && |p.incoming[0]| == n
    ensures Read(p, n).0 == p.incoming[0]
    ensures Read(p, n).1 == Port(p.log + [Took(p.incoming[0])], [], p.incoming[1..])
  {
    var q := p.(unread := p.unread + p.incoming[0], incoming := p.incoming[1..]);
    assert Await(p, n) == Await(q, n) == q;
  }
}

=== FILE: bytes.dfy ===
/**
 Octets, little-endian unsigned integers and ASCII text: the three ways the
 driver interprets the bytes of a reply frame.
 */
module Bytes {
  import opened Outcomes

  /** One octet on the serial line. */
  newtype byte = b: int | 0 <= b < 256

  /** 256^k, the number of distinct k-byte values. */
  function Pow256(k: nat): (r: nat)
    ensures r >= 1
  {
    if k == 0 then 1 else 256 * Pow256(k - 1)
  }

  lemma {:induction false} Pow256Monotone(j: nat, k: nat)
    requires j <= k
    ensures Pow256(j) <= Pow256(k)
    decreases k
  {
    if j < k {
      Pow256Monotone(j, k - 1);
    }
  }

  /** The unsigned value of `s` read least significant byte first, as
      `int.from_bytes(s, byteorder='little')` reads it (the empty slice is 0).
      A k-byte value is always below 256^k. */
  function FromLittleEndian(s: seq<byte>): (v: nat)
    ensures v < Pow256(|s|)
  {
    if s == [] then 0 else s[0] as nat + 256 * FromLittleEndian(s[1..])
  }

  /** The k-byte little-endian encoding of `v`. */
  function ToLittleEndian(v: nat, k: nat): (s: seq<byte>)
    requires v < Pow256(k)
    ensures |s| == k
  {
    if k == 0 then [] else [(v % 256) as byte] + ToLittleEndian(v / 256, k - 1)
  }

  /** Decoding undoes encoding. */
  lemma {:induction false} FromToLittleEndian(v: nat, k: nat)
    requires v < Pow256(k)
    ensures FromLittleEndian(ToLittleEndian(v, k)) == v
  {
    if k > 0 {
      FromToLittleEndian(v / 256, k - 1);
    }
  }

  /** Encoding undoes decoding: the bytes are determined by their value. */
  lemma {:induction false} ToFromLittleEndian(s: seq<byte>)
    ensures ToLittleEndian(FromLittleEndian(s), |s|) == s
  {
    if s != [] {
      var v := FromLittleEndian(s);
      var rest := FromLittleEndian(s[1..]);
      assert v % 256 == s[0] as nat && v / 256 == rest;
      ToFromLittleEndian(s[1..]);
    }
  }

  /** Two byte strings of the same length read as the same number exactly
      when they are the same bytes. */
  lemma LittleEndianInjective(a: seq<byte>, b: seq<byte>)
    requires |a| == |b|
    ensures FromLittleEndian(a) == FromLittleEndian(b) <==> a == b
  {
    if FromLittleEndian(a) == FromLittleEndian(b) {
      ToFromLittleEndian(a);
      ToFromLittleEndian(b);
    }
  }

  /** An octet that is an ASCII code. */
  predicate IsAsciiByte(b: byte) {
    b < 128
  }

  predicate IsAscii(s: seq<byte>) {
    forall i :: 0 <= i < |s| ==> IsAsciiByte(s[i])
  }

  predicate IsAsciiText(t: string) {
    forall i :: 0 <= i < |t| ==> t[i] as int < 128
  }

  /** `bytes.decode('ascii')`: one character per byte, and a failure as soon
      as any byte is 0x80 or above. */
  function DecodeAscii(s: seq<byte>): (r: Option<string>)
    ensures r.Some? <==> IsAscii(s)
    ensures r.Some? ==> |r.value| == |s|
    ensures r.Some? ==> forall i :: 0 <= i < |s| ==> r.value[i] as int == s[i] as int
  {
    if s == [] then Some("")
    else if !IsAsciiByte(s[0]) then None
    else match DecodeAscii(s[1..])
      case None => None
      case Some(t) => Some([s[0] as int as char] + t)
  }

  /** The bytes of an ASCII string. */
  function EncodeAscii(t: string): (s: seq<byte>)
    requires IsAsciiText(t)
    ensures |s| == |t|
    ensures forall i :: 0 <= i < |t| ==> s[i] as int == t[i] as int
  {
    seq(|t|, i requires 0 <= i < |t| => t[i] as int as byte)
  }

  /** ASCII decoding succeeds with `t` exactly on the bytes of `t`. */
  lemma DecodeAsciiIff(s: seq<byte>, t: string)
    ensures DecodeAscii(s) == Some(t) <==> IsAsciiText(t) && s == EncodeAscii(t)
  {
    if DecodeAscii(s) == Some(t) {
      assert IsAsciiText(t) by {
        forall i | 0 <= i < |t| ensures t[i] as int < 128 {
          assert IsAsciiByte(s[i]);
        }
      }
    }
    if IsAsciiText(t) && s == EncodeAscii(t) {
      var d := DecodeAscii(s);
      assert IsAscii(s) by {
        forall i | 0 <= i < |s| ensures IsAsciiByte(s[i]) {
          assert s[i] as int == t[i] as int;
        }
      }
      assert d.value == t;
    }
  }
}

=== FILE: device_session.dfy ===
/**
 The `Controller` session of the MFF101 driver: the handshake that opens it,
 the command/response exchange every operation goes through, and the flip
 state machine that makes sure the completion frame of a move is drained
 before the next move is issued.

 Every operation maps a controller to an `Outcome`: the value it returns and
 the controller afterwards, or the error it raises and the controller as the
 failure left it (port traffic already done stays done).
 */
module DeviceSession {
  import opened Outcomes
  import opened Bytes
  import opened ByteChannel
  import opened FrameCodec

  /** The driver's state: the identity read at connection, the cached
      position, whether a move is outstanding, and the port. */
  datatype Controller = Controller(info: Identity, position: byte, flipping: bool, port: Port)

  datatype Outcome<+T> = Done(value: T, after: Controller) | Failed(error: Error, after: Controller)

  /** The result of one exchange on the port and the port afterwards. */
  datatype Exchange<+T> = Exchange(result: Result<T>, port: Port)

  /** Every frame written to the port is one of the driver's commands. */
  predicate DriverWritesOnly(log: seq<Event>) {
    forall i :: 0 <= i < |log| && log[i].Wrote? ==> IsDriverCommand(log[i].frame)
  }

  lemma DriverWritesOnlyAppend(a: seq<Event>, b: seq<Event>)
    ensures DriverWritesOnly(a + b) <==> DriverWritesOnly(a) && DriverWritesOnly(b)
  {
    if DriverWritesOnly(a) && DriverWritesOnly(b) {
      forall i | 0 <= i < |a + b| && (a + b)[i].Wrote?
        ensures IsDriverCommand((a + b)[i].frame)
      {
        if i >= |a| {
          assert (a + b)[i] == b[i - |a|];
        }
      }
    }
    if DriverWritesOnly(a + b) {
      forall i | 0 <= i < |a| && a[i].Wrote? ensures IsDriverCommand(a[i].frame) {
        assert (a + b)[i] == a[i];
      }
      forall i | 0 <= i < |b| && b[i].Wrote? ensures IsDriverCommand(b[i].frame) {
        assert (a + b)[|a| + i] == b[i];
      }
    }
  }

  /** The events of a new log suffix write nothing but `frame`. */
  predicate WritesNothingBut(events: seq<Event>, frame: seq<byte>) {
    forall i :: 0 <= i < |events| && events[i].Wrote? ==> events[i].frame == frame
  }

  /** What holds between operations of a working session: the handshake
      passed, no byte is waiting unread, and only driver commands were
      written. */
  predicate Valid(c: Controller) {
    Accepted(c.info) && Pending(c.port) == 0 && DriverWritesOnly(c.port.log)
  }

  /** The transcript of a position query answered from the stream `s`. */
  function StatusEvents(s: seq<byte>): seq<Event>
    requires |s| >= StatusReplyLength
  {
    [Wrote(StatusRequest), Took(s[..StatusReplyLength])]
  }

  /** The transcript of draining a completion frame and re-querying the
      position, answered from the stream `s`. */
  function DrainEvents(s: seq<byte>): seq<Event>
    requires |s| >= CompletionLength + StatusReplyLength
  {
    [Took(s[..CompletionLength])] + StatusEvents(s[CompletionLength..])
  }

  /** `_send`: writes `cmd`, reads `responseBytes` bytes when a reply is
      expected, and fails if any byte is then left waiting. */
  function Send(p: Port, cmd: seq<byte>, responseBytes: Option<nat>): (x: Exchange<seq<byte>>)
    ensures x.result.Ok? ==> Pending(x.port) == 0
    ensures x.result.Err? ==> x.result.error in {Timeout, ProtocolDesync}
    ensures x.result == Err(ProtocolDesync) ==> Pending(x.port) > 0
    ensures p.log + [Wrote(cmd)] <= x.port.log
    ensures WritesNothingBut(x.port.log[|p.log|..], cmd)
    ensures responseBytes.None? ==>
      && x.port.log == p.log + [Wrote(cmd)]
      && x.port.unread == p.unread && x.port.incoming == p.incoming
      && (x.result.Ok? <==> Pending(p) == 0)
    ensures responseBytes.Some? ==>
      var n := responseBytes.value;
      && (x.result == Err(Timeout) <==> |Stream(p)| < n)
      && (|Stream(p)| >= n ==>
            && (x.result.Ok? <==> AnsweredAlone(p, cmd, n))
            && Stream(x.port) == Stream(p)[n..]
            && x.port.log == p.log + [Wrote(cmd), Took(Stream(p)[..n])])
      && (x.result.Ok? ==>
            && x.result.value == Stream(p)[..n]
            && Stream(x.port) == Stream(p)[n..]
            && x.port.log == p.log + [Wrote(cmd), Took(Stream(p)[..n])])
  {
    var w := Write(p, cmd);
    match responseBytes
    case None =>
      if Pending(w) == 0 then Exchange(Ok([]), w) else Exchange(Err(ProtocolDesync), w)
    case Some(n) =>
      var (data, q) := Read(w, n);
      assert Stream(w) == Stream(p);
      if |data| < n then Exchange(Err(Timeout), q)
      else if Pending(q) != 0 then Exchange(Err(ProtocolDesync), q)
      else Exchange(Ok(data), q)
  }

  /** The status exchange of `get_position`, on the port alone: the
      position is the byte at offset 8 of the 12-byte reply. */
  function QueryPosition(p: Port): (x: Exchange<byte>)
    ensures x.result.Err? ==> x.result.error in {Timeout, ProtocolDesync}
    ensures x.result == Err(Timeout) <==> |Stream(p)| < StatusReplyLength
    ensures p.log + [Wrote(StatusRequest)] <= x.port.log
    ensures WritesNothingBut(x.port.log[|p.log|..], StatusRequest)
    ensures x.result == Err(ProtocolDesync) ==> Pending(x.port) > 0
    ensures |Stream(p)| >= StatusReplyLength ==>
      && (x.result.Ok? <==> AnsweredAlone(p, StatusRequest, StatusReplyLength))
      && Stream(x.port) == Stream(p)[StatusReplyLength..]
      && x.port.log == p.log + StatusEvents(Stream(p))
    ensures x.result.Ok? ==>
      && |Stream(p)| >= StatusReplyLength
      && x.result.value == Stream(p)[PositionOffset]
      && Stream(x.port) == Stream(p)[StatusReplyLength..]
      && x.port.log == p.log + StatusEvents(Stream(p))
      && Pending(x.port) == 0
  {
    var x := Send(p, StatusRequest, Some(StatusReplyLength));
    match x.result
    case Err(e) => Exchange(Err(e), x.port)
    case Ok(reply) => Exchange(DecodeStatus(reply), x.port)
  }

  /** `get_position`: queries the status, caches the position byte and
      returns it. A pending move is not resolved first. */
  function GetPosition(c: Controller): (r: Outcome<byte>)
    ensures r.after.info == c.info && r.after.flipping == c.flipping
    ensures r.Failed? ==> r.error in {Timeout, ProtocolDesync}
    ensures r.Failed? ==> r.after.position == c.position
    ensures r.Failed? && r.error == Timeout <==> |Stream(c.port)| < StatusReplyLength
    ensures c.port.log + [Wrote(StatusRequest)] <= r.after.port.log
    ensures WritesNothingBut(r.after.port.log[|c.port.log|..], StatusRequest)
    ensures r.Failed? && r.error == ProtocolDesync ==> Pending(r.after.port) > 0
    ensures |Stream(c.port)| >= StatusReplyLength ==>
      && (r.Done? <==> AnsweredAlone(c.port, StatusRequest, StatusReplyLength))
      && Stream(r.after.port) == Stream(c.port)[StatusReplyLength..]
      && r.after.port.log == c.port.log + StatusEvents(Stream(c.port))
    ensures r.Done? ==>
      && r.value == r.after.position == Stream(c.port)[PositionOffset]
      && r.after.port.log == c.port.log + StatusEvents(Stream(c.port))
      && Stream(r.after.port) == Stream(c.port)[StatusReplyLength..]
      && Pending(r.after.port) == 0
    ensures Valid(c) && r.Done? ==> Valid(r.after)
  {
    var x := QueryPosition(c.port);
    match x.result
    case Err(e) => Failed(e, c.(port := x.port))
    case Ok(b) => Done(b, c.(position := b, port := x.port))
  }

  /** `identify`: flashes the front-panel LEDs; no reply is expected, so it
      fails exactly when bytes are already waiting. */
  function Identify(c: Controller): (r: Outcome<()>)
    ensures r.after == c.(port := r.after.port)
    ensures r.after.port.log == c.port.log + [Wrote(IdentifyCommand)]
    ensures Stream(r.after.port) == Stream(c.port) && Pending(r.after.port) == Pending(c.port)
    ensures r.Done? <==> Pending(c.port) == 0
    ensures r.Failed? ==> r.error == ProtocolDesync
    ensures Valid(c) ==> r.Done? && Valid(r.after)
  {
    var x := Send(c.port, IdentifyCommand, None);
    match x.result
    case Err(e) => Failed(e, c.(port := x.port))
    case Ok(_) => Done((), c.(port := x.port))
  }

  /** `_finish_flip`: nothing at all when no move is outstanding; otherwise
      collects the 20-byte completion frame, re-queries the position and
      clears the outstanding flag. */
  function FinishFlip(c: Controller): (r: Outcome<()>)
    ensures !c.flipping ==> r == Done((), c)
    ensures r.after.info == c.info
    ensures c.port.log <= r.after.port.log
    ensures r.Done? ==> !r.after.flipping
    ensures r.Failed? ==> r.after.flipping && r.after.position == c.position
  {
    if !c.flipping then Done((), c)
    else
      var (data, p) := Read(c.port, CompletionLength);
      if |data| < CompletionLength then Failed(Timeout, c.(port := p))
      else
        match GetPosition(c.(port := p))
        case Failed(e, c2) => Failed(e, c2)
        case Done(_, c2) => Done((), c2.(flipping := false))
  }

  /** With a move outstanding, `_finish_flip` consumes exactly the 20-byte
      completion frame and a 12-byte status reply, in that order, writes
      only the status request, and caches the reply's position byte. It
      times out exactly when the device has fewer than 32 bytes to send. */
  lemma FinishFlipDrains(c: Controller)
    requires c.flipping
    ensures var r := FinishFlip(c);
      var s := Stream(c.port);
      && (r.Failed? && r.error == Timeout <==> |s| < CompletionLength + StatusReplyLength)
      && WritesNothingBut(r.after.port.log[|c.port.log|..], StatusRequest)
      && (r.Failed? && r.error == ProtocolDesync ==> Pending(r.after.port) > 0)
      && (|s| >= CompletionLength + StatusReplyLength ==>
            && (r.Done? <==> AnsweredAlone(Read(c.port, CompletionLength).1, StatusRequest, StatusReplyLength))
            && r.after.port.log == c.port.log + DrainEvents(s)
            && Stream(r.after.port) == s[CompletionLength + StatusReplyLength..])
      && (r.Done? ==>
            && |s| >= CompletionLength + StatusReplyLength
            && r.after.position == s[CompletionLength + PositionOffset]
            && r.after.port.log == c.port.log + DrainEvents(s)
            && Stream(r.after.port) == s[CompletionLength + StatusReplyLength..]
            && Pending(r.after.port) == 0)
  {
    var (data, p) := Read(c.port, CompletionLength);
    var s := Stream(c.port);
    if |data| == CompletionLength {
      assert data == s[..CompletionLength] && Stream(p) == s[CompletionLength..] by {
        assert s == data + Stream(p);
      }
      var g := GetPosition(c.(port := p));
      assert g.after.port.log[|c.port.log|..] == [Took(data)] + g.after.port.log[|p.log|..];
      if |s| >= CompletionLength + StatusReplyLength {
        assert g.after.port.log == c.port.log + DrainEvents(s);
        assert s[CompletionLength..][StatusReplyLength..] == s[CompletionLength + StatusReplyLength..];
      }
    }
  }

  /** `_finish_flip` preserves a working session. */
  lemma FinishFlipValid(c: Controller)
    requires Valid(c)
    ensures FinishFlip(c).Done? ==> Valid(FinishFlip(c).after)
  {
    if c.flipping {
      var (data, p) := Read(c.port, CompletionLength);
      if |data| == CompletionLength {
        var g := GetPosition(c.(port := p));
        if g.Done? {
          CommandFrames(StatusRequest);
          DriverWritesOnlyAppend(p.log, StatusEvents(Stream(p)));
        }
      }
    }
  }

  /** Once a move has been resolved, resolving again does nothing: the
      operation is idempotent. */
  lemma FinishFlipIdempotent(c: Controller)
    requires FinishFlip(c).Done?
    ensures FinishFlip(FinishFlip(c).after) == FinishFlip(c)
  {
  }

  /** `flip`: resolves an outstanding move, then jogs. */
  function Flip(c: Controller, position: int, block: bool): (r: Outcome<()>)
    ensures r.after.info == c.info
    ensures c.port.log <= r.after.port.log
    ensures !IsPosition(position) ==> r.Failed?
    ensures !IsPosition(position) && !c.flipping ==> r == Failed(InvalidPosition, c)
    ensures !IsPosition(position) && r.error != InvalidPosition ==> c.flipping && FinishFlip(c).Failed?
    ensures c.flipping && FinishFlip(c).Failed? ==>
      r.Failed? && WritesNothingBut(r.after.port.log[|c.port.log|..], StatusRequest)
    ensures r.Done? ==> IsPosition(position) && r.after.flipping == !block
    ensures !c.flipping && IsPosition(position) && Pending(c.port) > 0
      ==> r == Failed(ProtocolDesync, c.(port := Write(c.port, JogFrame(position))))
    ensures !c.flipping && IsPosition(position) && !block ==> (r.Done? <==> Pending(c.port) == 0)
  {
    if c.flipping then
      FinishFlipDrains(c);
      match FinishFlip(c)
      case Failed(e, c1) => Failed(e, c1)
      case Done(_, c1) => Jog(c1, position, block)
    else
      Jog(c, position, block)
  }

  /** The rest of `flip`: rejects a position other than 1 or 2, writes the
      jog frame and marks the move outstanding; with `block` it then waits
      for the move to complete. */
  function Jog(c: Controller, position: int, block: bool): (r: Outcome<()>)
    ensures r.after.info == c.info
    ensures c.port.log <= r.after.port.log
    ensures !IsPosition(position) ==> r == Failed(InvalidPosition, c)
    ensures r.Done? ==> IsPosition(position) && r.after.flipping == !block
    ensures IsPosition(position) && Pending(c.port) > 0
      ==> r == Failed(ProtocolDesync, c.(port := Write(c.port, JogFrame(position))))
    ensures IsPosition(position) && !block ==> (r.Done? <==> Pending(c.port) == 0)
    ensures IsPosition(position) && block && |Stream(c.port)| < CompletionLength + StatusReplyLength
      ==> r.Failed? && (Pending(c.port) == 0 ==> r.error == Timeout)
    ensures IsPosition(position) && block && Pending(c.port) == 0
        && |Stream(c.port)| >= CompletionLength + StatusReplyLength
      ==> (r.Done? <==> AnsweredAlone(Read(Write(c.port, JogFrame(position)), CompletionLength).1,
                                      StatusRequest, StatusReplyLength))
  {
    if !IsPosition(position) then Failed(InvalidPosition, c)
    else
      var x := Send(c.port, JogFrame(position), None);
      if x.result.Err? then Failed(x.result.error, c.(port := x.port))
      else
        var c2 := c.(port := x.port, flipping := true);
        assert c2.port == Write(c.port, JogFrame(position));
        if block then
          var s := Stream(c2.port);
          var drained := Read(c2.port, CompletionLength).1;
          assert |s| < CompletionLength + StatusReplyLength ==> FinishFlip(c2).Failed? && FinishFlip(c2).error == Timeout
          by {
            FinishFlipDrains(c2);
          }
          assert |s| >= CompletionLength + StatusReplyLength ==>
            (FinishFlip(c2).Done? <==> AnsweredAlone(drained, StatusRequest, StatusReplyLength))
          by {
            FinishFlipDrains(c2);
          }
          FinishFlip(c2)
        else Done((), c2)
  }

  /** The transcript of a successful jog: the jog frame, then with `block`
      the new move's completion frame and status reply. */
  lemma JogTranscript(c: Controller, position: int, block: bool)
    requires Jog(c, position, block).Done?
    ensures var r := Jog(c, position, block);
      var s := Stream(c.port);
      var m := if block then CompletionLength + StatusReplyLength else 0;
      && |s| >= m
      && r.after.port.log
           == c.port.log + [Wrote(JogFrame(position))] + (if block then DrainEvents(s) else [])
      && r.after.position == (if block then s[CompletionLength + PositionOffset] else c.position)
      && Stream(r.after.port) == s[m..]
      && Pending(r.after.port) == 0
  {
    var x := Send(c.port, JogFrame(position), None);
    var c2 := c.(port := x.port, flipping := true);
    if block {
      FinishFlipDrains(c2);
    }
  }

  /** A flip to a position other than 1 or 2 writes no jog frame: the only
      frame it may write is the status request of resolving the move that
      was outstanding. */
  lemma FlipRejectsBeforeJog(c: Controller, position: int, block: bool)
    requires !IsPosition(position)
    ensures var r := Flip(c, position, block);
      r.Failed? && WritesNothingBut(r.after.port.log[|c.port.log|..], StatusRequest)
  {
    if c.flipping {
      FinishFlipDrains(c);
    }
  }

  /** The complete transcript of a successful flip: the outstanding move's
      completion frame and status reply are consumed before the jog frame is
      written, and with `block` the new move's completion frame and status
      reply after it. The cached position is the last status reply's. */
  lemma FlipTranscript(c: Controller, position: int, block: bool)
    requires Flip(c, position, block).Done?
    ensures var r := Flip(c, position, block);
      var s := Stream(c.port);
      var k := if c.flipping then CompletionLength + StatusReplyLength else 0;
      var m := if block then CompletionLength + StatusReplyLength else 0;
      && |s| >= k + m
      && r.after.port.log
           == c.port.log
              + (if c.flipping then DrainEvents(s) else [])
              + [Wrote(JogFrame(position))]
              + (if block then DrainEvents(s[k..]) else [])
      && r.after.position
           == (if block then s[k + CompletionLength + PositionOffset]
               else if c.flipping then s[CompletionLength + PositionOffset]
               else c.position)
      && Stream(r.after.port) == s[k + m..]
      && Pending(r.after.port) == 0
  {
    if c.flipping {
      FlipTranscriptResolving(c, position, block);
    } else {
      assert Flip(c, position, block) == Jog(c, position, block);
      JogTranscript(c, position, block);
    }
  }

  /** The case of `FlipTranscript` where a move was outstanding: the jog's
      transcript starts after the 32 bytes that resolving the move drained. */
  lemma FlipTranscriptResolving(c: Controller, position: int, block: bool)
    requires c.flipping && Flip(c, position, block).Done?
    ensures var r := Flip(c, position, block);
      var s := Stream(c.port);
      var k := CompletionLength + StatusReplyLength;
      var m := if block then CompletionLength + StatusReplyLength else 0;
      && |s| >= k + m
      && r.after.port.log == c.port.log + DrainEvents(s) + [Wrote(JogFrame(position))]
                             + (if block then DrainEvents(s[k..]) else [])
      && r.after.position == (if block then s[k + CompletionLength + PositionOffset]
                              else s[CompletionLength + PositionOffset])
      && Stream(r.after.port) == s[k + m..]
      && Pending(r.after.port) == 0
  {
    var s := Stream(c.port);
    var k := CompletionLength + StatusReplyLength;
    FinishFlipDrains(c);
    var c1 := FinishFlip(c).after;
    assert Flip(c, position, block) == Jog(c1, position, block);
    assert Stream(c1.port) == s[k..];
    JogTranscript(c1, position, block);
    if block {
      assert s[k..][CompletionLength + StatusReplyLength..] == s[k + CompletionLength + StatusReplyLength..];
      assert s[k..][CompletionLength + PositionOffset] == s[k + CompletionLength + PositionOffset];
    }
  }

  /** `flip` preserves a working session. */
  lemma FlipValid(c: Controller, position: int, block: bool)
    requires Valid(c)
    ensures Flip(c, position, block).Done? ==> Valid(Flip(c, position, block).after)
  {
    var f := if c.flipping then FinishFlip(c) else Done((), c);
    if c.flipping {
      FinishFlipValid(c);
    }
    if f.Done? && IsPosition(position) {
      var c1 := f.after;
      var x := Send(c1.port, JogFrame(position), None);
      if x.result.Ok? {
        var c2 := c1.(port := x.port, flipping := true);
        DriverWritesOnlyAppend(c1.port.log, [Wrote(JogFrame(position))]);
        assert Valid(c2);
        if block {
          FinishFlipValid(c2);
        }
      }
    }
  }

  /** The two checks `Controller(...)` makes of the info reply: the model
      number is "MFF002" and two NULs, then the firmware version is 65539.
      They pass exactly when the decoded identity is the accepted one. */
  function CheckIdentity(reply: seq<byte>): (r: Result<Identity>)
    ensures r.Ok? <==> DecodeInfo(reply).Ok? && Accepted(DecodeInfo(reply).value)
    ensures r.Ok? ==> r.value == DecodeInfo(reply).value
    ensures DecodeInfo(reply).Err? ==> r == Err(NotAscii)
    ensures DecodeInfo(reply).Ok? && DecodeInfo(reply).value.modelNumber != ExpectedModel
      ==> r == Err(HandshakeModel)
    ensures DecodeInfo(reply).Ok? && DecodeInfo(reply).value.modelNumber == ExpectedModel
        && DecodeInfo(reply).value.firmware != ExpectedFirmware
      ==> r == Err(HandshakeFirmware)
  {
    var info :- DecodeInfo(reply);
    if info.modelNumber != ExpectedModel then Err(HandshakeModel)
    else if info.firmware != ExpectedFirmware then Err(HandshakeFirmware)
    else Ok(info)
  }

  /** `Controller(...)`: opens the port, reads the 90-byte info reply,
      insists on the MFF002 model and firmware 65539, and reads the
      initial position. */
  function Connect(script: seq<seq<byte>>): (r: Result<Controller>)
    ensures |Concat(script)| < InfoReplyLength ==> r == Err(Timeout)
    ensures r.Err? ==> r.error != InvalidPosition && r.error != FrameTooShort
    ensures r.Ok? ==> !r.value.flipping && Accepted(r.value.info)
  {
    var port := Open(script);
    assert Stream(port) == Concat(script);
    var x := Send(port, InfoRequest, Some(InfoReplyLength));
    match x.result
    case Err(e) => Err(e)
    case Ok(reply) =>
      match CheckIdentity(reply)
      case Err(e) => Err(e)
      case Ok(info) =>
        var q := QueryPosition(x.port);
        match q.result
        case Err(e) => Err(e)
        case Ok(b) => Ok(Controller(info, b, false, q.port))
  }

  /** A session opens through exactly three successful steps: the info
      exchange, the identity checks and the first status exchange. */
  lemma ConnectSteps(script: seq<seq<byte>>)
    requires Connect(script).Ok?
    ensures var x := Send(Open(script), InfoRequest, Some(InfoReplyLength));
      && x.result.Ok?
      && CheckIdentity(x.result.value).Ok?
      && QueryPosition(x.port).result.Ok?
      && Connect(script).value
           == Controller(CheckIdentity(x.result.value).value, QueryPosition(x.port).result.value,
                         false, QueryPosition(x.port).port)
  {
  }

  /** Conversely, three successful steps open a session holding their
      results. */
  lemma ConnectFromSteps(script: seq<seq<byte>>, x: Exchange<seq<byte>>, info: Identity, q: Exchange<byte>)
    requires Send(Open(script), InfoRequest, Some(InfoReplyLength)) == x
    requires x.result.Ok? && CheckIdentity(x.result.value) == Ok(info)
    requires QueryPosition(x.port) == q && q.result.Ok?
    ensures Connect(script) == Ok(Controller(info, q.result.value, false, q.port))
  {
  }

  /** A session is opened only on a device whose info reply carries the
      MFF002 model bytes and the firmware bytes 03 00 01 00. */
  lemma ConnectHandshake(script: seq<seq<byte>>)
    requires Connect(script).Ok?
    ensures var s := Concat(script);
      && |s| >= InfoReplyLength
      && s[10..18] == ExpectedModelBytes
      && s[20..24] == ExpectedFirmwareBytes
  {
    var s := Concat(script);
    assert Stream(Open(script)) == s;
    ConnectSteps(script);
    var x := Send(Open(script), InfoRequest, Some(InfoReplyLength));
    AcceptedReplyBytes(s, x.result.value);
  }

  lemma AcceptedReplyBytes(s: seq<byte>, reply: seq<byte>)
    requires |s| >= InfoReplyLength && reply == s[..InfoReplyLength]
    requires CheckIdentity(reply).Ok?
    ensures s[10..18] == ExpectedModelBytes && s[20..24] == ExpectedFirmwareBytes
  {
    HandshakeBytes(reply);
    assert s[10..18] == reply[10..18] && s[20..24] == reply[20..24];
  }

  /** An opened session holds the identity decoded from the info reply and
      the position byte of the first status reply. */
  lemma ConnectIdentity(script: seq<seq<byte>>)
    requires Connect(script).Ok?
    ensures var c := Connect(script).value;
      var s := Concat(script);
      && |s| >= InfoReplyLength + StatusReplyLength
      && DecodeInfo(s[..InfoReplyLength]) == Ok(c.info)
      && c.position == s[InfoReplyLength + PositionOffset]
  {
    var s := Concat(script);
    assert Stream(Open(script)) == s;
    ConnectSteps(script);
    var x := Send(Open(script), InfoRequest, Some(InfoReplyLength));
    assert Stream(x.port) == s[InfoReplyLength..];
  }

  /** Opening a session writes the info request and one status request,
      reads exactly the 90-byte info reply and the 12-byte status reply,
      leaves nothing unread, and yields a working session. */
  lemma ConnectTranscript(script: seq<seq<byte>>)
    requires Connect(script).Ok?
    ensures var c := Connect(script).value;
      var s := Concat(script);
      && |s| >= InfoReplyLength + StatusReplyLength
      && c.port.log == [Wrote(InfoRequest), Took(s[..InfoReplyLength])] + StatusEvents(s[InfoReplyLength..])
      && Stream(c.port) == s[InfoReplyLength + StatusReplyLength..]
      && Valid(c)
  {
    var s := Concat(script);
    assert Stream(Open(script)) == s;
    ConnectSteps(script);
    var x := Send(Open(script), InfoRequest, Some(InfoReplyLength));
    assert x.port.log == [Wrote(InfoRequest), Took(s[..InfoReplyLength])];
    assert Stream(x.port) == s[InfoReplyLength..];
    var q := QueryPosition(x.port);
    assert q.port.log == x.port.log + StatusEvents(s[InfoReplyLength..]);
    assert s[InfoReplyLength..][StatusReplyLength..] == s[InfoReplyLength + StatusReplyLength..];
    CommandFrames(InfoRequest);
    CommandFrames(StatusRequest);
    DriverWritesOnlyAppend(x.port.log, StatusEvents(s[InfoReplyLength..]));
  }

  /** Why a session fails to open once the device has sent the 90-byte info
      reply: extra bytes waiting after it desynchronise the protocol, and
      otherwise the identity checks' error is the constructor's error. */
  lemma ConnectFailures(script: seq<seq<byte>>)
    requires |Concat(script)| >= InfoReplyLength
    ensures !AnsweredAlone(Open(script), InfoRequest, InfoReplyLength)
      ==> Connect(script) == Err(ProtocolDesync)
    ensures var reply := Concat(script)[..InfoReplyLength];
      AnsweredAlone(Open(script), InfoRequest, InfoReplyLength) && CheckIdentity(reply).Err?
      ==> Connect(script) == Err(CheckIdentity(reply).error)
    ensures var reply := Concat(script)[..InfoReplyLength];
      var x := Send(Open(script), InfoRequest, Some(InfoReplyLength));
      AnsweredAlone(Open(script), InfoRequest, InfoReplyLength) && CheckIdentity(reply).Ok?
      ==> && (|Concat(script)| < InfoReplyLength + StatusReplyLength ==> Connect(script) == Err(Timeout))
          && (|Concat(script)| >= InfoReplyLength + StatusReplyLength ==>
                && (Connect(script).Ok? <==> AnsweredAlone(x.port, StatusRequest, StatusReplyLength))
                && (!AnsweredAlone(x.port, StatusRequest, StatusReplyLength) ==> Connect(script) == Err(ProtocolDesync)))
  {
    assert Stream(Open(script)) == Concat(script);
  }
}

=== FILE: frame_codec.dfy ===
/**
 The fixed-length frames the MFF101 driver exchanges with the flip mount,
 in the Thorlabs APT protocol: four six-byte command frames (MGMSG_HW_REQ_INFO,
 MGMSG_MOD_IDENTIFY, MGMSG_MOT_REQ_STATUSBITS, MGMSG_MOT_MOVE_JOG) and the
 decoding of the 90-byte info reply and the 12-byte status reply.
 */
module FrameCodec {
  import opened Outcomes
  import opened Bytes

  // ---------------------------------------------------------------------
  // Command frames

  /** A six-byte APT header: the 16-bit message id sent low byte first, two
      parameter bytes, then the destination and the source address. */
  datatype Header = Header(messageId: nat, param1: byte, param2: byte, dest: byte, source: byte)

  predicate ValidHeader(h: Header) {
    h.messageId < 0x1_0000
  }

  /** Destination of every command: the device's controller. */
  const DeviceAddress: byte := 0x50
  /** Source of every command: the host. */
  const HostAddress: byte := 0x01

  const HwReqInfo: nat := 0x0005
  const ModIdentify: nat := 0x0223
  const MotReqStatusBits: nat := 0x0429
  const MotMoveJog: nat := 0x046A

  function EncodeHeader(h: Header): (f: seq<byte>)
    requires ValidHeader(h)
    ensures |f| == 6
  {
    ToLittleEndian(h.messageId, 2) + [h.param1, h.param2, h.dest, h.source]
  }

  function DecodeHeader(f: seq<byte>): (r: Option<Header>)
    ensures r.Some? <==> |f| == 6
    ensures r.Some? ==> ValidHeader(r.value)
  {
    if |f| != 6 then None
    else Some(Header(FromLittleEndian(f[..2]), f[2], f[3], f[4], f[5]))
  }

  lemma HeaderRoundTrip(h: Header)
    requires ValidHeader(h)
    ensures DecodeHeader(EncodeHeader(h)) == Some(h)
  {
    var f := EncodeHeader(h);
    assert f[..2] == ToLittleEndian(h.messageId, 2);
    FromToLittleEndian(h.messageId, 2);
  }

  lemma FrameRoundTrip(f: seq<byte>)
    requires |f| == 6
    ensures EncodeHeader(DecodeHeader(f).value) == f
  {
    ToFromLittleEndian(f[..2]);
  }

  /** The shape every command the driver writes has: six bytes, addressed
      from the host to the controller. */
  predicate IsCommandFrame(f: seq<byte>) {
    |f| == 6 && f[4] == DeviceAddress && f[5] == HostAddress
  }

  /** A flip position: the only values a jog accepts. */
  predicate IsPosition(position: int) {
    position == 1 || position == 2
  }

  const InfoRequest: seq<byte> := [0x05, 0x00, 0x00, 0x00, 0x50, 0x01]
  const IdentifyCommand: seq<byte> := [0x23, 0x02, 0x00, 0x00, 0x50, 0x01]
  const StatusRequest: seq<byte> := [0x29, 0x04, 0x00, 0x00, 0x50, 0x01]

  /** The direction byte of a jog, looked up by position. */
  const JogDirections: seq<byte> := [0x01, 0x02]

  /** The jog frame that flips the mount to `position`: its second
      parameter, the direction, is the position itself. */
  function JogFrame(position: int): (f: seq<byte>)
    requires IsPosition(position)
    ensures IsCommandFrame(f)
    ensures DecodeHeader(f) == Some(Header(MotMoveJog, 0x00, position as byte, DeviceAddress, HostAddress))
  {
    var f := [0x6A, 0x04, 0x00] + [JogDirections[position - 1]] + [0x50, 0x01];
    assert f[..2] == [0x6A, 0x04] && FromLittleEndian(f[..2]) == MotMoveJog;
    assert f[3] == position as byte;
    f
  }

  /** The frames the driver ever writes. */
  predicate IsDriverCommand(f: seq<byte>) {
    f == InfoRequest || f == IdentifyCommand || f == StatusRequest || f == JogFrame(1) || f == JogFrame(2)
  }

  /** Each fixed command frame is the APT header of its message, and every
      frame the driver writes is a six-byte command ending 0x50 0x01. */
  lemma CommandFrames(f: seq<byte>)
    ensures DecodeHeader(InfoRequest) == Some(Header(HwReqInfo, 0x00, 0x00, DeviceAddress, HostAddress))
    ensures DecodeHeader(IdentifyCommand) == Some(Header(ModIdentify, 0x00, 0x00, DeviceAddress, HostAddress))
    ensures DecodeHeader(StatusRequest) == Some(Header(MotReqStatusBits, 0x00, 0x00, DeviceAddress, HostAddress))
    ensures IsDriverCommand(f) ==> IsCommandFrame(f)
  {
    assert InfoRequest[..2] == [0x05, 0x00];
    assert IdentifyCommand[..2] == [0x23, 0x02];
    assert StatusRequest[..2] == [0x29, 0x04];
  }

  // ---------------------------------------------------------------------
  // Reply frames

  const InfoReplyLength: nat := 90
  const StatusReplyLength: nat := 12
  const CompletionLength: nat := 20
  /** Offset, in the status reply, of the byte that holds the position. */
  const PositionOffset: nat := 8

  /** What the info reply says about the device. */
  datatype Identity = Identity(
    modelNumber: string,
    deviceType: nat,
    serialNumber: nat,
    firmware: nat,
    hardware: nat)

  /** Field ranges of the info reply, as the driver slices it. */
  predicate IdentityInRange(id: Identity) {
    && |id.modelNumber| <= 8
    && IsAsciiText(id.modelNumber)
    && id.deviceType < 0x1_0000
    && id.serialNumber < 0x1_0000_0000
    && id.firmware < 0x1_0000_0000
    && id.hardware < 0x1_0000
  }

  /** Python's `r[lo:hi]`: the bounds are clipped to the sequence. */
  function Slice(r: seq<byte>, lo: nat, hi: nat): (s: seq<byte>)
    requires lo <= hi
    ensures |s| <= hi - lo
    ensures hi <= |r| ==> s == r[lo..hi]
  {
    var h := if hi <= |r| then hi else |r|;
    var l := if lo <= h then lo else h;
    r[l..h]
  }

  /** Decodes the info reply: model number from bytes [10,18) as ASCII,
      and the little-endian serial number [6,10), type [18,20), firmware
      version [20,24) and hardware version [84,86). */
  function DecodeInfo(r: seq<byte>): (id: Result<Identity>)
    ensures id.Ok? <==> IsAscii(Slice(r, 10, 18))
    ensures id.Err? ==> id.error == NotAscii
    ensures id.Ok? ==> IdentityInRange(id.value)
  {
    var serial := Slice(r, 6, 10);
    var kind := Slice(r, 18, 20);
    var firmware := Slice(r, 20, 24);
    var hardware := Slice(r, 84, 86);
    Pow256Monotone(|serial|, 4);
    Pow256Monotone(|kind|, 2);
    Pow256Monotone(|firmware|, 4);
    Pow256Monotone(|hardware|, 2);
    match DecodeAscii(Slice(r, 10, 18))
    case None => Err(NotAscii)
    case Some(model) =>
      Ok(Identity(
           model,
           FromLittleEndian(kind),
           FromLittleEndian(serial),
           FromLittleEndian(firmware),
           FromLittleEndian(hardware)))
  }

  /** An info reply that carries `id`, with every other byte taken from
      `base`. */
  function EncodeInfo(id: Identity, base: seq<byte>): (r: seq<byte>)
    requires IdentityInRange(id) && |id.modelNumber| == 8
    requires |base| == InfoReplyLength
    ensures |r| == InfoReplyLength
  {
    base[..6]
    + ToLittleEndian(id.serialNumber, 4)
    + EncodeAscii(id.modelNumber)
    + ToLittleEndian(id.deviceType, 2)
    + ToLittleEndian(id.firmware, 4)
    + base[24..84]
    + ToLittleEndian(id.hardware, 2)
    + base[86..]
  }

  /** Decoding an encoded reply gives back the identity, whatever the
      other bytes are. */
  lemma InfoRoundTrip(id: Identity, base: seq<byte>)
    requires IdentityInRange(id) && |id.modelNumber| == 8
    requires |base| == InfoReplyLength
    ensures DecodeInfo(EncodeInfo(id, base)) == Ok(id)
  {
    var r := EncodeInfo(id, base);
    assert r[6..10] == ToLittleEndian(id.serialNumber, 4);
    assert r[10..18] == EncodeAscii(id.modelNumber);
    assert r[18..20] == ToLittleEndian(id.deviceType, 2);
    assert r[20..24] == ToLittleEndian(id.firmware, 4);
    assert r[84..86] == ToLittleEndian(id.hardware, 2);
    FromToLittleEndian(id.serialNumber, 4);
    FromToLittleEndian(id.deviceType, 2);
    FromToLittleEndian(id.firmware, 4);
    FromToLittleEndian(id.hardware, 2);
    DecodeAsciiIff(r[10..18], id.modelNumber);
  }

  /** Re-encoding a decoded reply into itself changes nothing: the decoded
      fields are exactly the bytes of their ranges. */
  lemma InfoReencode(r: seq<byte>)
    requires |r| == InfoReplyLength
    requires DecodeInfo(r).Ok?
    ensures |DecodeInfo(r).value.modelNumber| == 8
    ensures EncodeInfo(DecodeInfo(r).value, r) == r
  {
    var id := DecodeInfo(r).value;
    DecodeAsciiIff(r[10..18], id.modelNumber);
    ToFromLittleEndian(r[6..10]);
    ToFromLittleEndian(r[18..20]);
    ToFromLittleEndian(r[20..24]);
    ToFromLittleEndian(r[84..86]);
    assert r == r[..6] + r[6..10] + r[10..18] + r[18..20] + r[20..24] + r[24..84] + r[84..86] + r[86..];
  }

  /** The status reply's position byte; a reply too short to hold it fails,
      as indexing past its end does. */
  function DecodeStatus(r: seq<byte>): Result<byte> {
    if |r| > PositionOffset then Ok(r[PositionOffset]) else Err(FrameTooShort)
  }

  // ---------------------------------------------------------------------
  // Handshake

  const ExpectedModel: string := "MFF002\0\0"
  const ExpectedFirmware: nat := 65539

  /** The identity of the one supported device. */
  predicate Accepted(id: Identity) {
    id.modelNumber == ExpectedModel && id.firmware == ExpectedFirmware
  }

  const ExpectedModelBytes: seq<byte> := [0x4D, 0x46, 0x46, 0x30, 0x30, 0x32, 0x00, 0x00]
  const ExpectedFirmwareBytes: seq<byte> := [0x03, 0x00, 0x01, 0x00]

  /** The model-number bytes decode to the expected model exactly when they
      are the expected bytes. */
  lemma ModelBytes(m: seq<byte>)
    ensures DecodeAscii(m) == Some(ExpectedModel) <==> m == ExpectedModelBytes
  {
    assert EncodeAscii(ExpectedModel) == ExpectedModelBytes;
    DecodeAsciiIff(m, ExpectedModel);
  }

  /** Four firmware bytes read as the expected version exactly when they
      are the expected bytes. */
  lemma FirmwareBytes(f: seq<byte>)
    requires |f| == 4
    ensures FromLittleEndian(f) == ExpectedFirmware <==> f == ExpectedFirmwareBytes
  {
    LittleEndianInjective(f, ExpectedFirmwareBytes);
    assert FromLittleEndian(ExpectedFirmwareBytes) == ExpectedFirmware;
  }

  /** An info reply passes the handshake exactly when its model-number
      bytes spell "MFF002" and two NULs and its firmware bytes are
      03 00 01 00. */
  lemma HandshakeBytes(r: seq<byte>)
    requires |r| == InfoReplyLength
    ensures DecodeInfo(r).Ok? && Accepted(DecodeInfo(r).value)
        <==> r[10..18] == ExpectedModelBytes && r[20..24] == ExpectedFirmwareBytes
  {
    var m := r[10..18];
    var f := r[20..24];
    assert Slice(r, 10, 18) == m && Slice(r, 20, 24) == f;
    ModelBytes(m);
    FirmwareBytes(f);
    assert DecodeInfo(r).Ok? ==> DecodeInfo(r).value.modelNumber == DecodeAscii(m).value;
    assert DecodeInfo(r).Ok? ==> DecodeInfo(r).value.firmware == FromLittleEndian(f);
  }
}

=== FILE: outcomes.dfy ===
/**
 The result types of the flip-mount driver model. Every exception and failed
 assertion of the driver becomes one `Error` value; `Result` supports the
 `:-` operator so that a failed step ends the operation with its error.
 */
module Outcomes {

  datatype Option<+T> = None | Some(value: T)

  /** The ways an operation of the driver can fail. */
  datatype Error =
    | Timeout            // a read returned fewer bytes than it asked for
    | ProtocolDesync     // bytes were left unread after an exchange
    | FrameTooShort      // a reply too short to hold the field being read
    | NotAscii           // model-number bytes that do not decode as ASCII
    | HandshakeModel     // the device reports another model number
    | HandshakeFirmware  // the device reports another firmware version
    | InvalidPosition    // a flip to a position other than 1 or 2

  datatype Result<+T> = Ok(value: T) | Err(error: Error) {

    predicate IsFailure() {
      Err?
    }

    function PropagateFailure<U>(): Result<U>
      requires Err?
    {
      Err(error)
    }

    function Extract(): T
      requires Ok?
    {
      value
    }
  }
}

=== FILE: scenarios.dfy ===
/**
 The session against a device that answers every request with whole frames
 of the right length: what a flip, a pair of non-blocking flips and a
 position query then do, and what happens when a position query is issued
 while a move is still outstanding.
 */
module SessionScenarios {
  import opened Outcomes
  import opened Bytes
  import opened ByteChannel
  import opened FrameCodec
  import opened DeviceSession

  /** A status query answered by exactly one 12-byte transmission returns
      that reply's position byte and leaves nothing waiting. */
  lemma QueryOnWholeReply(c: Controller, reply: seq<byte>, rest: seq<seq<byte>>)
    requires c.port.unread == [] && c.port.incoming == [reply] + rest
    requires |reply| == StatusReplyLength
    ensures GetPosition(c)
      == Done(reply[PositionOffset],
              c.(position := reply[PositionOffset],
                 port := Port(c.port.log + [Wrote(StatusRequest), Took(reply)], [], rest)))
  {
    var w := Write(c.port, StatusRequest);
    ReadWholeTransmission(w, StatusReplyLength);
  }

  /** With a move outstanding and the device sending its 20-byte completion
      frame and then a 12-byte status reply, resolving the move consumes
      both, caches the reply's position and clears the outstanding flag. */
  lemma FinishOnWholeFrames(c: Controller, completion: seq<byte>, reply: seq<byte>, rest: seq<seq<byte>>)
    requires c.flipping
    requires c.port.unread == [] && c.port.incoming == [completion, reply] + rest
    requires |completion| == CompletionLength && |reply| == StatusReplyLength
    ensures FinishFlip(c)
      == Done((), c.(position := reply[PositionOffset], flipping := false,
                     port := Port(c.port.log + [Took(completion), Wrote(StatusRequest), Took(reply)], [], rest)))
  {
    ReadWholeTransmission(c.port, CompletionLength);
    var p := Read(c.port, CompletionLength).1;
    assert p.incoming == [reply] + rest;
    QueryOnWholeReply(c.(port := p), reply, rest);
  }

  /** From a working session with no move outstanding, a non-blocking flip
      to a valid position writes the jog frame and nothing else. */
  lemma JogFromIdle(c: Controller, position: int)
    requires Valid(c) && !c.flipping && IsPosition(position)
    ensures Flip(c, position, false) == Done((), c.(port := Write(c.port, JogFrame(position)), flipping := true))
  {
  }

  /** A blocking flip to `position` against a device that completes the
      move and reports `position` leaves the mount idle at `position`,
      and a following position query returns `position` too. */
  lemma BlockingFlipThenGetPosition(
    c: Controller, position: int,
    completion: seq<byte>, reply: seq<byte>, reply2: seq<byte>, rest: seq<seq<byte>>)
    requires Valid(c) && !c.flipping && IsPosition(position)
    requires c.port.unread == [] && c.port.incoming == [completion, reply, reply2] + rest
    requires |completion| == CompletionLength && |reply| == StatusReplyLength && |reply2| == StatusReplyLength
    requires reply[PositionOffset] as int == position && reply2[PositionOffset] as int == position
    ensures Flip(c, position, true).Done?
    ensures var c1 := Flip(c, position, true).after;
      && !c1.flipping && c1.position as int == position && Valid(c1)
      && GetPosition(c1).Done? && GetPosition(c1).value as int == position
  {
    var c2 := c.(port := Write(c.port, JogFrame(position)), flipping := true);
    assert Flip(c, position, true) == FinishFlip(c2);
    FinishOnWholeFrames(c2, completion, reply, [reply2] + rest);
    FlipValid(c, position, true);
    var c1 := FinishFlip(c2).after;
    QueryOnWholeReply(c1, reply2, rest);
  }

  /** A non-blocking flip issued while a move is outstanding, against a
      device that sends the completion frame and a status reply, first
      resolves the move and then writes its own jog frame. */
  lemma FlipResolvesThenJogs(
    c: Controller, position: int, completion: seq<byte>, reply: seq<byte>, rest: seq<seq<byte>>)
    requires Valid(c) && c.flipping && IsPosition(position)
    requires c.port.unread == [] && c.port.incoming == [completion, reply] + rest
    requires |completion| == CompletionLength && |reply| == StatusReplyLength
    ensures Flip(c, position, false)
      == Done((), c.(position := reply[PositionOffset], flipping := true,
                     port := Port(c.port.log + [Took(completion), Wrote(StatusRequest), Took(reply),
                                                Wrote(JogFrame(position))], [], rest)))
  {
    FinishOnWholeFrames(c, completion, reply, rest);
  }

  /** Two non-blocking flips in a row: the second resolves the first move
      (its completion frame and status reply) before writing its own jog,
      and a final `FinishFlip` leaves the mount idle at the position the
      last status reply reports. */
  lemma NonBlockingFlipsResolve(
    c: Controller, first: int, second: int,
    completion1: seq<byte>, reply1: seq<byte>,
    completion2: seq<byte>, reply2: seq<byte>, rest: seq<seq<byte>>)
    requires Valid(c) && !c.flipping && IsPosition(first) && IsPosition(second)
    requires c.port.unread == []
    requires c.port.incoming == [completion1, reply1, completion2, reply2] + rest
    requires |completion1| == CompletionLength && |reply1| == StatusReplyLength
    requires |completion2| == CompletionLength && |reply2| == StatusReplyLength
    ensures Flip(c, first, false).Done?
    ensures var c1 := Flip(c, first, false).after;
      && c1.flipping
      && Flip(c1, second, false).Done?
      && var c2 := Flip(c1, second, false).after;
      && c2.flipping
      && c2.position == reply1[PositionOffset]
      && c2.port.log == c.port.log
           + [Wrote(JogFrame(first)), Took(completion1), Wrote(StatusRequest), Took(reply1),
              Wrote(JogFrame(second))]
      && FinishFlip(c2).Done?
      && !FinishFlip(c2).after.flipping
      && FinishFlip(c2).after.position == reply2[PositionOffset]
  {
    JogFromIdle(c, first);
    FlipValid(c, first, false);
    var later := [completion2, reply2] + rest;
    var c1 := c.(port := Write(c.port, JogFrame(first)), flipping := true);
    assert Flip(c, first, false).after == c1;
    assert c1.port.incoming == [completion1, reply1] + later;
    FlipResolvesThenJogs(c1, second, completion1, reply1, later);
    var log2 := c1.port.log + [Took(completion1), Wrote(StatusRequest), Took(reply1), Wrote(JogFrame(second))];
    var c2 := c1.(position := reply1[PositionOffset], flipping := true, port := Port(log2, [], later));
    assert Flip(c1, second, false).after == c2;
    assert log2 == c.port.log
      + [Wrote(JogFrame(first)), Took(completion1), Wrote(StatusRequest), Took(reply1), Wrote(JogFrame(second))];
    FinishOnWholeFrames(c2, completion2, reply2, rest);
  }

  /** `get_position` does not resolve an outstanding move: if the
      completion frame is the next transmission, the status read takes its
      first 12 bytes as the status reply, finds the other 8 waiting, and
      fails with a desynchronised protocol while the move stays
      outstanding. */
  lemma GetPositionMisreadsCompletion(c: Controller, completion: seq<byte>, rest: seq<seq<byte>>)
    requires c.flipping
    requires c.port.unread == [] && c.port.incoming == [completion] + rest
    requires |completion| == CompletionLength
    ensures GetPosition(c).Failed?
    ensures GetPosition(c).error == ProtocolDesync
    ensures GetPosition(c).after.flipping
    ensures GetPosition(c).after.port.unread == completion[StatusReplyLength..]
  {
    var w := Write(c.port, StatusRequest);
    var q := w.(unread := completion, incoming := rest);
    assert Await(w, StatusReplyLength) == Await(q, StatusReplyLength) == q;
  }

  /** `identify` does not resolve an outstanding move either: once the
      completion frame has arrived, it fails on the bytes left waiting. */
  lemma IdentifyAfterCompletionArrives(c: Controller, completion: seq<byte>, rest: seq<seq<byte>>)
    requires Valid(c) && c.flipping
    requires c.port.incoming == [completion] + rest
    requires |completion| == CompletionLength
    ensures Identify(c.(port := Deliver(c.port))).Failed?
    ensures Identify(c.(port := Deliver(c.port))).error == ProtocolDesync
  {
  }

  /** An exchange answered by exactly one transmission of the expected
      length succeeds with that transmission and leaves nothing waiting. */
  lemma SendOnWholeReply(p: Port, cmd: seq<byte>, reply: seq<byte>, rest: seq<seq<byte>>)
    requires p.unread == [] && p.incoming == [reply] + rest && |reply| > 0
    ensures Send(p, cmd, Some(|reply|))
      == Exchange(Ok(reply), Port(p.log + [Wrote(cmd), Took(reply)], [], rest))
  {
    ReadWholeTransmission(Write(p, cmd), |reply|);
  }

  /** The status exchange on the port alone, answered by one 12-byte
      transmission, returns that reply's position byte. */
  lemma QueryPortOnWholeReply(p: Port, status: seq<byte>, rest: seq<seq<byte>>, log: seq<Event>)
    requires p.unread == [] && p.incoming == [status] + rest && |status| == StatusReplyLength
    requires log == p.log + [Wrote(StatusRequest), Took(status)]
    ensures QueryPosition(p) == Exchange(Ok(status[PositionOffset]), Port(log, [], rest))
  {
    SendOnWholeReply(p, StatusRequest, status, rest);
  }

  /** Once the info exchange and the identity checks have passed, a status
      reply arriving as one 12-byte transmission opens the session. */
  lemma ConnectAfterIdentity(
    script: seq<seq<byte>>, x: Exchange<seq<byte>>, info: Identity,
    status: seq<byte>, rest: seq<seq<byte>>, log: seq<Event>)
    requires Send(Open(script), InfoRequest, Some(InfoReplyLength)) == x
    requires x.result.Ok? && CheckIdentity(x.result.value) == Ok(info)
    requires x.port.unread == [] && x.port.incoming == [status] + rest && |status| == StatusReplyLength
    requires log == x.port.log + [Wrote(StatusRequest), Took(status)]
    ensures Connect(script) == Ok(Controller(info, status[PositionOffset], false, Port(log, [], rest)))
  {
    QueryPortOnWholeReply(x.port, status, rest, log);
    ConnectFromSteps(script, x, info, Exchange(Ok(status[PositionOffset]), Port(log, [], rest)));
  }

  /** The first two steps of opening a session on a supported device that
      sends its info reply as one 90-byte transmission: the exchange
      returns that reply and the identity checks pass. */
  lemma AcceptedOnWholeReply(reply: seq<byte>, status: seq<byte>, rest: seq<seq<byte>>)
    requires |reply| == InfoReplyLength
    requires reply[10..18] == ExpectedModelBytes && reply[20..24] == ExpectedFirmwareBytes
    ensures Send(Open([reply, status] + rest), InfoRequest, Some(InfoReplyLength))
      == Exchange(Ok(reply), Port([Wrote(InfoRequest), Took(reply)], [], [status] + rest))
    ensures DecodeInfo(reply).Ok? && CheckIdentity(reply) == Ok(DecodeInfo(reply).value)
  {
    SendOnWholeReply(Open([reply, status] + rest), InfoRequest, reply, [status] + rest);
    HandshakeBytes(reply);
  }

  /** A supported device that answers the info request with one 90-byte
      transmission carrying the MFF002 model and firmware 65539, and the
      status request with one 12-byte transmission, is accepted: the session
      opens idle at the reply's position with exactly these two exchanges
      logged. */
  lemma ConnectOnWholeFrames(reply: seq<byte>, status: seq<byte>, rest: seq<seq<byte>>)
    requires |reply| == InfoReplyLength && |status| == StatusReplyLength
    requires reply[10..18] == ExpectedModelBytes && reply[20..24] == ExpectedFirmwareBytes
    ensures DecodeInfo(reply).Ok?
    ensures Connect([reply, status] + rest)
      == Ok(Controller(DecodeInfo(reply).value, status[PositionOffset], false,
                       Port([Wrote(InfoRequest), Took(reply), Wrote(StatusRequest), Took(status)], [], rest)))
  {
    var p := Port([Wrote(InfoRequest), Took(reply)], [], [status] + rest);
    AcceptedOnWholeReply(reply, status, rest);
    var log := [Wrote(InfoRequest), Took(reply), Wrote(StatusRequest), Took(status)];
    assert log == p.log + [Wrote(StatusRequest), Took(status)];
    ConnectAfterIdentity([reply, status] + rest, Exchange(Ok(reply), p), DecodeInfo(reply).value, status, rest, log);
  }

  /** A blocking read of `n` bytes lets in a reply split over two
      transmissions, and nothing after it. */
  lemma AwaitSplitReply(w: Port, first: seq<byte>, second: seq<byte>, rest: seq<seq<byte>>, n: nat)
    requires w.unread == [] && w.incoming == [first, second] + rest
    requires 0 < |first| < n && |first| + |second| == n
    ensures Await(w, n) == w.(unread := first + second, incoming := rest)
  {
    var w1 := w.(unread := first, incoming := [second] + rest);
    assert Await(w, n) == Await(w1, n);
  }

  /** A status reply may arrive in two transmissions: once both have
      arrived the query succeeds, taking the 12 bytes as one reply. */
  lemma QueryOnSplitReply(c: Controller, first: seq<byte>, second: seq<byte>, rest: seq<seq<byte>>)
    requires c.port.unread == [] && c.port.incoming == [first, second] + rest
    requires 0 < |first| < StatusReplyLength && |first| + |second| == StatusReplyLength
    ensures GetPosition(c)
      == Done((first + second)[PositionOffset],
              c.(position := (first + second)[PositionOffset],
                 port := Port(c.port.log + [Wrote(StatusRequest), Took(first + second)], [], rest)))
  {
    var w := Write(c.port, StatusRequest);
    AwaitSplitReply(w, first, second, rest, StatusReplyLength);
    assert (first + second)[..StatusReplyLength] == first + second;
    var q := Port(w.log + [Took(first + second)], [], rest);
    assert Read(w, StatusReplyLength) == (first + second, q);
    assert Send(c.port, StatusRequest, Some(StatusReplyLength)) == Exchange(Ok(first + second), q);
  }
}
